=== FILE: README.md ===
# MultiAgents in Dafny

A model of the routing core of the MultiAgents assistant. A master agent asks three pattern agents in a fixed order:

- the calculator ("add" / "multiply" plus whole-number words);
- the weather agent (`weather in <city>`);
- the search agent (any query mentioning "search").

The first truthy answer wins. When all three decline, a language-model chat agent answers and saves the turn in its transcript. The Streamlit page around it keeps a displayed history with send and clear actions and exports the conversation as text.

The modules follow the program:

- `Optional`: `Option` and a reply/state pair `Step`.
- `Text`: the Python `str` operations the agents use, on ASCII. These are `lower`, `in`, `split`, `strip`, `replace(p, "")` and `title`.
- `Decimal`: `isdigit`, `int` and `str` on non-negative numbers.
- `Calculator`, `Weather`, `Search`, `Chat` and `Master`: one module per class of `components.py`.
- `App`: the pure parts of `app.py`.

The weather service, the search provider and the model endpoint are function parameters (`Master.Services`). Each one is a function from what is sent to what comes back, so every property holds for every possible service behaviour.

The search agent's `str.replace("search", "")` deletes every occurrence of "search" from the lower-cased query, not only the first. `Text.RemoveAllAround` and `Search.TermOfSurroundedQuery` state this.

## Model

| member | source | states |
|---|---|---|
| Calculator.Run | components.py:10-20 | declines exactly when neither "add" nor "multiply" occurs in the lower-cased query; "add" wins over "multiply"; the answer is a canonical decimal whose value is the sum (add) or product (multiply) of the whole-number words |
| Calculator.DigitFields | components.py:12 | the kept fields are exactly the `split()` fields that pass `isdigit()` |
| Calculator.DigitFieldsAppend | components.py:12 | the filter keeps the fields' original order |
| Calculator.ValuesOfShown | components.py:12-13 | converting the decimal forms of numbers back with `int` gives the numbers, in order |
| Calculator.OperandsAreDigitFields | components.py:12 | every operand is the `int` of a whitespace-separated field that passes `isdigit()`, every such field gives an operand, and there are no more operands than fields |
| Calculator.Sum | components.py:13 | `sum` of the operands: no operand exceeds it |
| Calculator.SumSnoc | components.py:13 | adding the operands one by one from the left, as `sum` does, gives the same total |
| Calculator.Product | components.py:16-18 | the product of the operands is zero exactly when some operand is zero |
| Calculator.ProductSnoc | components.py:17-18 | each step of the loop multiplies the running product by the next operand |
| Calculator.MultiplyAll | components.py:16-18 | the loop that starts from 1 and multiplies by each operand in turn computes the product |
| Calculator.NoDigitNoOperands | components.py:12 | a query without a digit character has no operands |
| Calculator.AddWithoutOperands | components.py:11-13 | "add" with no whole-number word answers "0" (the empty sum) |
| Calculator.MultiplyWithoutOperands | components.py:14-19 | "multiply" without "add" and with no whole-number word answers "1" (the loop's initial product) |
| Calculator.OperandsOfCommand | components.py:12 | the operands of `keyword a b` are exactly `[a, b]` |
| Calculator.AddTwo | components.py:11-13 | `add a b` answers `str(a + b)` |
| Calculator.MultiplyCommandNotAdd | components.py:11 | `multiply a b` does not trip the "add" test |
| Calculator.MultiplyTwo | components.py:14-19 | `multiply a b` answers `str(a * b)` |
| Decimal.Show | components.py:13 | `str(n)` is a canonical digit string that reads back as `n` |
| Decimal.ShowValue | components.py:12-13 | `str(int(s)) == s` for every canonical digit string |
| Decimal.CanonicalPositive | components.py:13 | a canonical digit string other than "0" denotes a positive number |
| Decimal.IsDigits | components.py:12 | a string passing `isdigit()` holds no whitespace, so it can be a `split()` field |
| Decimal.ValueLeadingZero | components.py:12 | `int(s)` ignores a leading zero |
| Text.LowerChar | components.py:11 | a capital becomes the small letter at the same place in the alphabet; every other character is kept |
| Text.Lower | components.py:11 | `lower()` applies that to every character and keeps the length |
| Text.LowerAppend | components.py:11 | lower-casing distributes over concatenation |
| Text.LowerNoUpper | components.py:11 | a string without capitals is its own lower-case form |
| Text.Contains | components.py:11 | `p in s` holds only when `p` is no longer than `s` |
| Text.ContainsIffOccurs | components.py:11 | `p in s` holds exactly when `p` occurs at some index of `s` |
| Text.ContainsAt | components.py:11 | an occurrence at a known index makes `p in s` true |
| Text.MissingChar | components.py:11 | `p in s` is false when `s` lacks one of the characters of `p` |
| Text.ContainsPrefix | components.py:11 | `p in p + rest` |
| Text.Split | components.py:12 | `split()` yields non-empty whitespace-free fields whose concatenation is the input with whitespace deleted |
| Text.SplitJoin | components.py:12 | `split()` recovers fields joined by single spaces |
| Text.SplitSpace | components.py:12 | `split()` cuts at every whitespace character: the fields of the text before it, then those of the text after it |
| Text.SplitField | components.py:12 | a non-empty run without whitespace is one field, never cut apart |
| Text.SplitAllSpace | components.py:12 | a string of whitespace only has no fields |
| Text.Strip | components.py:32 | `strip()` is the slice between the leading and trailing whitespace, beginning and ending with a non-space |
| Text.StrippedAtUnique | components.py:32 | that characterisation determines the stripped string uniquely |
| Text.StripUnchanged | components.py:32 | a string without surrounding whitespace strips to itself |
| Text.StripIdempotent | components.py:32 | stripping twice is stripping once |
| Text.StripSpacePrefix | components.py:46 | one leading whitespace character does not change the stripped result |
| Text.StripSpaceSuffix | components.py:46 | one trailing whitespace character does not change the stripped result |
| Text.RemoveAll | components.py:46 | `replace(p, "")` never lengthens the string, and shortens it by at least `len(p)` when `p` occurs |
| Text.RemoveAllSplit | components.py:46 | when the second part begins with a character that `p` does not hold, `replace(p, "")` of the glued string is the glued results of the two parts |
| Text.RemoveAllAround | components.py:46 | around a character that `p` does not hold, `replace(p, "")` deletes on both sides independently, so every occurrence goes, not only the first |
| Text.RemoveAllSelf | components.py:46 | deleting `p` from `p` leaves the empty string |
| Text.RemoveAllUnchangedIff | components.py:46 | `replace(p, "")` leaves the string unchanged exactly when `p` does not occur in it |
| Text.NotContainsShort | components.py:45 | a pattern longer than the string does not occur in it |
| Text.Title | components.py:39 | `title()` capitalises each letter not preceded by a letter and lower-cases every other letter; non-letters are kept |
| Text.LowerTitle | components.py:39 | title-casing changes only case: lower-casing its result gives the lower-cased input |
| Weather.FindFrom | components.py:29 | `re.search` finds the leftmost index where "weather in " is followed by a `[\w\s]` character, or reports that there is none |
| Weather.LeftmostMatch | components.py:29 | searching from the start fails exactly when the pattern matches nowhere, and otherwise finds the leftmost match |
| Weather.CityRun | components.py:29 | the greedy group `[\w\s]+` is the longest prefix of city characters |
| Weather.City | components.py:29-32 | no city exactly when the pattern matches nowhere in the lower-cased query; otherwise the stripped greedy group after the leftmost match |
| Weather.StrippedRunShape | components.py:29-32 | a stripped run of city characters from a capital-free string is capital-free, made of city characters and stripped |
| Weather.CityShape | components.py:29-32 | the city sent to the service is lower case, made of `[\w\s]` characters and stripped |
| Weather.Report | components.py:39 | the report opens with "The weather in ", then names `city.title()`, which differs from the city only in case; then " is ", the weather code, " with ", the temperature, and "°C." at the end, with nothing else between them |
| Weather.Run | components.py:27-40 | declines exactly when the pattern does not match; otherwise it makes one request for the city with the key; status 200 gives the report sentence with the title-cased city, any other status gives the fixed apology; never an empty answer |
| Weather.CityOfPlainQuery | components.py:29-32 | `weather in <word>` for a word of letters asks about the lower-cased word |
| Weather.PlainQueryAnswer | components.py:27-40 | `weather in <word>` answers the report for the lower-cased word on 200 and the apology otherwise |
| Search.Term | components.py:46 | the search term is the stripped result of deleting "search" from the lower-cased query, and is never longer than the query |
| Search.Run | components.py:44-52 | declines exactly when "search" does not occur in the lower-cased query; otherwise the first result's body, or "No results found." when there is none |
| Search.TermDeletesKeyword | components.py:45-46 | the deletion changes the lower-cased query exactly when the query mentions "search" |
| Search.TermOfPlainQuery | components.py:45-46 | `search <rest>` searches for `rest` lower-cased and stripped, when `rest` does not mention "search" |
| Search.TermOfSurroundedQuery | components.py:45-46 | `search <rest> search` also searches for `rest` lower-cased and stripped: the second "search" is deleted too |
| Chat.NewAgent | components.py:57-60 | a new chat agent has the default model and an empty transcript |
| Chat.Answer | components.py:70-72 | the reply text is the completion, or the fixed apology followed by the error text, which can be read back from it |
| Chat.Run | components.py:62-74 | one completion request carrying the whole transcript; the reply is the completion text, or the apology prefix followed by the error text; exactly one turn `(query, reply)` is appended and nothing else changes |
| Chat.TranscriptOrder | components.py:73 | after N calls the transcript holds the old turns followed by N new turns whose inputs are the queries in call order |
| Master.NewAgent | components.py:78-82 | a new master agent holds the weather key and a fresh chat agent for the token: default model, empty transcript |
| Master.FirstAnswering | components.py:85-88 | finds the leftmost truthy answer, or reports that every answer is `None` or empty |
| Master.FirstOfThree | components.py:85-88 | for three handlers, the leftmost truthy one is found by testing them in order |
| Master.HandlerTruthiness | components.py:86-87 | the calculator's answer counts whenever it answers, the weather agent's whenever the pattern matches, and the search agent's unless the first result has an empty body |
| Master.Route | components.py:84-89 | the first truthy answer of calculator, weather and search is returned with the state untouched; only when all three decline does the chat agent answer, with the reply to the request carrying the transcript, and exactly the turn `(query, reply)` is appended |
| Master.MemoryChangesOnlyOnFallback | components.py:84-89 | the transcript changes if and only if all three pattern agents decline |
| Master.AddWins | components.py:11-13 | any query mentioning "add" is answered by the calculator's sum, before weather and search are asked |
| Master.WeatherInAddis | components.py:11 | "weather in addis" is answered "0" by the calculator |
| Master.FallbackFailure | components.py:71-73 | when the model call fails, the apology with the error text is both the reply and the saved turn |
| Master.EmptySearchBodyFallsThrough | components.py:49-50 | a first search result with an empty body is falsy, so the chat agent answers and saves the turn |
| App.Prefix | app.py:47 | the prefix is "You: " exactly for the user role and "Bot: " for every other role |
| App.RenderedAppend | app.py:46-48 | the export of a concatenated history is the concatenation of the exports |
| App.RenderedSingle | app.py:47-48 | one entry exports as prefix, content and a line feed |
| App.ExchangeLines | app.py:47-48 | a user entry and a bot entry export as "You: ..." then "Bot: ..." |
| App.RenderedExchange | app.py:46-48 | appending a user entry and a bot entry appends exactly their two lines to the export |
| App.ExportConvo | app.py:44-49 | the loop produces the lines of all entries in history order, and "" for an empty history |
| App.Startup | app.py:11-15 | an agent is built exactly when both secrets are non-empty; its chat agent has the token, the default model and an empty transcript |
| App.Send | app.py:31-35 | an empty query changes nothing; otherwise exactly the user entry and then the routed reply are appended, earlier entries are unchanged, and the agent becomes the routed state |
| App.Clear | app.py:39-40 | the history becomes empty, so the export is empty, and the agent is kept |
| App.ExportAfterSend | app.py:31-35 | a send adds exactly the lines "You: query" and "Bot: reply" to the export |
| App.ClearThenSend | app.py:31-40 | after a clear, a send leaves exactly the two new entries |
| App.RunScript | app.py:11-41 | one run of the script: stops at the guard exactly when a secret is missing; a clear empties the history; an empty send keeps it; a send appends the user entry and then the reply of a freshly built master agent |
| App.RunScriptForgetsConversation | app.py:15 | in a run of the script as written, a query that reaches the chat agent is sent with an empty transcript, however long the displayed history |
| App.SessionRemembersConversation | app.py:31-35 | when the agent is kept across sends, the second chat query is sent with the first exchange in its transcript |

## Left out

- HTTP requests, URL formatting and the JSON reply of the weather service (components.py:33-38). They become the `fetch` parameter. Its reply carries the status and the temperature and weather code already rendered by `str`. A missing JSON key (`KeyError`) is not modelled.
- Network exceptions from `requests.get` and from the search provider. They are not caught in the code and are not modelled. Exceptions from the model call are modelled as `Chat.Failed`.
- How `ConversationBufferMemory` renders the transcript into the prompt (components.py:63-64). The request carries the turns themselves.
- Non-ASCII text. `lower`, `title`, `isdigit`, `split`, `strip`, `\w` and `\s` are modelled on ASCII only. Unicode case mappings, digits and spaces are not modelled.
- The Streamlit rendering, the page title and the markdown display (app.py:5, 20-27, 51-54). They are presentation only.
- The secrets lookup from the environment and Streamlit secrets (app.py:8-9). It is I/O, so the two values are parameters of `App.Startup`.
- The `input_submitted` flag (app.py:31). Nothing ever sets it, so the send block runs only on the button. `App.Send` is the body under that condition.
- Calculator.Run: does not model the limit of 4300 digits that Python 3.11 and later apply by default to `int()` and `str()` (components.py:12-13, 19). A field longer than that, or a sum or product whose decimal form is longer, raises `ValueError` in the source. The error propagates out of `route` after app.py:33 has appended the user entry. The model instead answers `Some(Show(...))` for every such query. The same gap applies to `Calculator.AddTwo`, `Calculator.MultiplyTwo`, `Decimal.Value` and `Decimal.Show`, which hold for numbers of any length.
- `st.rerun()` (app.py:36, 41). It is modelled only as the end of one run of `App.RunScript`.

## Findings

| source | as written | input that shows it | evidently intended | confidence | as-written member | corrected member |
|---|---|---|---|---|---|---|
| app.py:15 | `MasterAgent` (and with it the chat agent's memory) is rebuilt on every run of the script, and Streamlit reruns the script after every send | send "hello", then "what did I just say?": the second model request carries an empty transcript | the chat agent keeps its transcript across sends, as `ChatAgent.run` is written to do | medium; not executed | App.RunScriptForgetsConversation | App.SessionRemembersConversation |

=== FILE: app.dfy ===
/** The pure core of app.py: the secrets guard, the chat history with its send
    and clear actions, and the conversation export. */
module App {
  import opened Optional
  import Master
  import Chat

  /** One displayed message: `{"role": ..., "content": ...}`. */
  datatype Entry = Entry(role: string, content: string)

  const UserRole: string := "user"
  const BotRole: string := "bot"

  /** `"You: "` for the user role, `"Bot: "` for every other role. */
  function Prefix(role: string): (p: string)
    ensures |p| == 5
    ensures p == "You: " <==> role == UserRole
    ensures role != UserRole ==> p == "Bot: "
  {
    if role == UserRole then "You: " else "Bot: "
  }

  /** The line one entry contributes to the export. */
  function Line(e: Entry): string {
    Prefix(e.role) + e.content + "\n"
  }

  /** The export of a history: its entries' lines, in history order. */
  function Rendered(history: seq<Entry>): string {
    if history == [] then "" else Line(history[0]) + Rendered(history[1..])
  }

  /** The export of `h1 + h2` is the export of `h1` followed by that of `h2`. */
  lemma {:induction false} RenderedAppend(h1: seq<Entry>, h2: seq<Entry>)
    ensures Rendered(h1 + h2) == Rendered(h1) + Rendered(h2)
    decreases |h1|
  {
    if h1 == [] {
      assert h1 + h2 == h2;
    } else {
      assert (h1 + h2)[0] == h1[0];
      assert (h1 + h2)[1..] == h1[1..] + h2;
      RenderedAppend(h1[1..], h2);
    }
  }

  /** `export_convo`: starts from the empty string and appends each entry's
      prefix, content and line feed in history order. */
  method ExportConvo(history: seq<Entry>) returns (convo: string)
    ensures convo == Rendered(history)
    ensures history == [] ==> convo == ""
  {
    convo := "";
    for i := 0 to |history|
      invariant convo == Rendered(history[..i])
    {
      RenderedAppend(history[..i], [history[i]]);
      assert Rendered([history[i]]) == Line(history[i]);
      assert history[..i + 1] == history[..i] + [history[i]];
      convo := convo + Prefix(history[i].role) + history[i].content + "\n";
    }
    assert history[..|history|] == history;
  }

  /** The guard before the agent is built: both secrets must be non-empty,
      otherwise the script stops and there is no agent. */
  function Startup(hfToken: string, weatherKey: string): (r: Option<Master.Agent>)
    ensures r.Some? <==> hfToken != "" && weatherKey != ""
    ensures r.Some? ==> && r.value.weatherKey == weatherKey
                        && r.value.chat.token == hfToken
                        && r.value.chat.model == Chat.DefaultModel
                        && r.value.chat.memory == []
  {
    if hfToken == "" || weatherKey == "" then None
    else Some(Master.NewAgent(hfToken, weatherKey))
  }

  /** The history shown on the page together with the agent answering it. */
  datatype Session = Session(history: seq<Entry>, agent: Master.Agent)

  /** The send block: a non-empty query appends the user's entry and then the
      bot's routed reply, and nothing else in the history changes; an empty
      query changes nothing. */
  function Send(s: Session, query: string, services: Master.Services): (r: Session)
    ensures query == "" ==> r == s
    ensures query != "" ==>
              var routed := Master.Route(s.agent, query, services);
              && |r.history| == |s.history| + 2
              && r.history[..|s.history|] == s.history
              && r.history[|s.history|] == Entry(UserRole, query)
              && r.history[|s.history| + 1] == Entry(BotRole, routed.reply)
              && r.agent == routed.state
  {
    if query == "" then s
    else
      var withQuery := s.history + [Entry(UserRole, query)];
      var routed := Master.Route(s.agent, query, services);
      Session(withQuery + [Entry(BotRole, routed.reply)], routed.state)
  }

  /** The clear block: the history becomes empty, so the export is empty too. */
  function Clear(s: Session): (r: Session)
    ensures |r.history| == 0
    ensures Rendered(r.history) == ""
    ensures r.agent == s.agent
  {
    s.(history := [])
  }

  /** The export of a single entry is its line. */
  lemma RenderedSingle(e: Entry)
    ensures Rendered([e]) == Line(e)
  {
    assert [e][1..] == [];
  }

  /** The lines of a user entry and a bot entry. */
  lemma ExchangeLines(query: string, reply: string)
    ensures Line(Entry(UserRole, query)) + Line(Entry(BotRole, reply))
            == "You: " + query + "\n" + "Bot: " + reply + "\n"
  {
  }

  /** Appending a user entry and a bot entry appends their two lines to the export. */
  lemma RenderedExchange(h: seq<Entry>, query: string, reply: string)
    ensures Rendered(h + [Entry(UserRole, query), Entry(BotRole, reply)])
            == Rendered(h) + ("You: " + query + "\n" + "Bot: " + reply + "\n")
  {
    var u, b := Entry(UserRole, query), Entry(BotRole, reply);
    RenderedAppend(h, [u, b]);
    RenderedAppend([u], [b]);
    assert [u] + [b] == [u, b];
    RenderedSingle(u);
    RenderedSingle(b);
    ExchangeLines(query, reply);
  }

  /** A send adds exactly the two lines "You: query" and "Bot: reply" to the export. */
  lemma ExportAfterSend(s: Session, query: string, services: Master.Services)
    requires query != ""
    ensures Rendered(Send(s, query, services).history)
            == Rendered(s.history) + ("You: " + query + "\n"
                                      + "Bot: " + Master.Route(s.agent, query, services).reply + "\n")
  {
    var reply := Master.Route(s.agent, query, services).reply;
    var h := Send(s, query, services).history;
    assert h == s.history + [Entry(UserRole, query), Entry(BotRole, reply)];
    RenderedExchange(s.history, query, reply);
  }

  /** After a clear, a send leaves exactly the two new entries. */
  lemma ClearThenSend(s: Session, query: string, services: Master.Services)
    requires query != ""
    ensures Send(Clear(s), query, services).history
            == [Entry(UserRole, query), Entry(BotRole, Master.Route(s.agent, query, services).reply)]
  {
  }

  // ---------------------------------------------------------------- one script run

  /** What the user did to trigger a run of the script. */
  datatype Event = SendPressed(query: string) | ClearPressed

  /** A session's reaction to one event. */
  function Apply(s: Session, e: Event, services: Master.Services): Session {
    match e
    case SendPressed(query) => Send(s, query, services)
    case ClearPressed => Clear(s)
  }

  /** One run of the script as written: the guard, a NEW master agent, then the
      event applied to the stored history. Only the history survives the run;
      `None` means the script stopped at the guard. */
  function RunScript(hfToken: string, weatherKey: string, history: seq<Entry>,
                     e: Event, services: Master.Services): (r: Option<seq<Entry>>)
    ensures r.None? <==> hfToken == "" || weatherKey == ""
    ensures r.Some? && e.ClearPressed? ==> r.value == []
    ensures r.Some? && e.SendPressed? && e.query == "" ==> r.value == history
    ensures r.Some? && e.SendPressed? && e.query != "" ==>
              r.value == history + [Entry(UserRole, e.query),
                                    Entry(BotRole, Master.Route(Master.NewAgent(hfToken, weatherKey), e.query, services).reply)]
  {
    match Startup(hfToken, weatherKey)
    case None => None
    case Some(agent) => Some(Apply(Session(history, agent), e, services).history)
  }

  /** Every query routed to the chat agent in a run of the script as written reaches
      the model with an EMPTY transcript, however long the displayed history is:
      the agent holding the transcript is rebuilt on every run. */
  lemma RunScriptForgetsConversation(hfToken: string, weatherKey: string, history: seq<Entry>,
                                     query: string, services: Master.Services)
    requires hfToken != "" && weatherKey != "" && query != ""
    requires forall j :: 0 <= j < 3 ==>
               !Master.Answers(Master.Handlers(Master.NewAgent(hfToken, weatherKey), query, services)[j])
    ensures var r := RunScript(hfToken, weatherKey, history, SendPressed(query), services);
            && r.Some?
            && r.value[|history| + 1].content
               == Chat.Answer(services.complete(Chat.Request(hfToken, Chat.DefaultModel, [], query)))
  {
    var agent := Master.NewAgent(hfToken, weatherKey);
    var routed := Master.Route(agent, query, services);
    assert routed.reply == Chat.Run(agent.chat, query, services.complete).reply;
  }

  /** A session that keeps its agent across sends: after a first query that
      reached the chat agent, a second one reaches the model together with the
      first exchange. */
  lemma SessionRemembersConversation(s: Session, q1: string, q2: string, services: Master.Services)
    requires q1 != "" && q2 != ""
    requires forall j :: 0 <= j < 3 ==> !Master.Answers(Master.Handlers(s.agent, q1, services)[j])
    requires forall j :: 0 <= j < 3 ==>
               !Master.Answers(Master.Handlers(Send(s, q1, services).agent, q2, services)[j])
    ensures var s1 := Send(s, q1, services);
            var chat := s.agent.chat;
            var remembered := chat.memory + [Chat.Turn(q1, s1.history[|s.history| + 1].content)];
            && s1.agent.chat.memory == remembered
            && Send(s1, q2, services).history[|s1.history| + 1].content
               == Chat.Answer(services.complete(Chat.Request(chat.token, chat.model, remembered, q2)))
  {
    var s1 := Send(s, q1, services);
    var routed := Master.Route(s1.agent, q2, services);
    assert routed.reply == Chat.Run(s1.agent.chat, q2, services.complete).reply;
  }
}

=== FILE: calculator.dfy ===
/** `CalculatorAgent.run` (components.py): keyword-triggered sum or product of
    the whole-number words of the query. */
module Calculator {
  import opened Optional
  import opened Text
  import opened Decimal

  /** The fields that pass `isdigit()`, in their original order. */
  function DigitFields(ts: seq<string>): (ds: seq<string>)
    ensures |ds| <= |ts|
    ensures forall k :: 0 <= k < |ds| ==> IsDigits(ds[k])
    ensures forall t :: t in ds ==> t in ts
    ensures forall t :: t in ts && IsDigits(t) ==> t in ds
  {
    if ts == [] then []
    else (if IsDigits(ts[0]) then [ts[0]] else []) + DigitFields(ts[1..])
  }

  /** Filtering keeps the order: the digit fields of `a + b` are those of `a`, then those of `b`. */
  lemma {:induction false} DigitFieldsAppend(a: seq<string>, b: seq<string>)
    ensures DigitFields(a + b) == DigitFields(a) + DigitFields(b)
    decreases |a|
  {
    if a == [] {
      assert a + b == b;
    } else {
      assert (a + b)[0] == a[0];
      assert (a + b)[1..] == a[1..] + b;
      DigitFieldsAppend(a[1..], b);
    }
  }

  /** `int(s)` applied to each digit field. */
  function Values(ds: seq<string>): (ns: seq<nat>)
    requires forall k :: 0 <= k < |ds| ==> IsDigits(ds[k])
    ensures |ns| == |ds|
    ensures forall k :: 0 <= k < |ds| ==> IsDigits(ds[k]) && ns[k] == Value(ds[k])
  {
    seq(|ds|, k requires 0 <= k < |ds| => assert IsDigits(ds[k]); Value(ds[k]))
  }

  /** Reading back the decimal forms of numbers gives the numbers. */
  lemma ValuesOfShown(ns: seq<nat>)
    ensures var ds := seq(|ns|, k requires 0 <= k < |ns| => Show(ns[k]));
            && (forall k :: 0 <= k < |ds| ==> IsDigits(ds[k]))
            && Values(ds) == ns
  {
  }

  /** The calculator's operands: the whole-number fields of the query, converted
      to integers, in order. */
  function Operands(query: string): seq<nat> {
    Values(DigitFields(Split(query)))
  }

  /** Converting the whole-number fields of `ts`: every number comes from such a
      field and every such field gives a number. */
  lemma DigitValues(ts: seq<string>)
    ensures var ns := Values(DigitFields(ts));
            && |ns| <= |ts|
            && (forall n :: n in ns ==> exists t :: t in ts && IsDigits(t) && n == Value(t))
            && (forall t :: t in ts && IsDigits(t) ==> Value(t) in ns)
  {
    var ds := DigitFields(ts);
    var ns := Values(ds);
    forall n | n in ns
      ensures exists t :: t in ts && IsDigits(t) && n == Value(t)
    {
      var k :| 0 <= k < |ns| && ns[k] == n;
      var t := ds[k];
      assert t in ds;
      assert t in ts && IsDigits(t) && n == Value(t);
    }
    forall t | t in ts && IsDigits(t)
      ensures Value(t) in ns
    {
      assert t in ds;
      var k :| 0 <= k < |ds| && ds[k] == t;
      assert ns[k] == Value(t);
    }
  }

  /** Every operand comes from a whitespace-separated field of the query that is a
      whole number, and every such field gives an operand. */
  lemma OperandsAreDigitFields(query: string)
    ensures |Operands(query)| <= |Split(query)|
    ensures forall n :: n in Operands(query) ==>
              exists t :: t in Split(query) && IsDigits(t) && n == Value(t)
    ensures forall t :: t in Split(query) && IsDigits(t) ==> Value(t) in Operands(query)
  {
    DigitValues(Split(query));
  }

  /** Python's `sum`: 0 for no operands; no operand exceeds the sum. */
  function Sum(ns: seq<nat>): (s: nat)
    ensures forall k :: 0 <= k < |ns| ==> ns[k] <= s
  {
    if ns == [] then 0
    else
      var rest := Sum(ns[1..]);
      assert forall k :: 1 <= k < |ns| ==> ns[k] == ns[1..][k - 1];
      ns[0] + rest
  }

  /** The product of the operands: 1 for none; zero exactly when some operand is zero. */
  function Product(ns: seq<nat>): (p: nat)
    ensures p == 0 <==> exists k :: 0 <= k < |ns| && ns[k] == 0
  {
    if ns == [] then 1
    else
      var rest := Product(ns[1..]);
      assert forall k :: 1 <= k < |ns| ==> ns[k] == ns[1..][k - 1];
      ns[0] * rest
  }

  /** Adding the operands from the left, as `sum` does, gives `Sum`. */
  lemma {:induction false} SumSnoc(ns: seq<nat>, n: nat)
    ensures Sum(ns + [n]) == Sum(ns) + n
    decreases |ns|
  {
    if ns != [] {
      assert (ns + [n])[1..] == ns[1..] + [n];
      SumSnoc(ns[1..], n);
    }
  }

  /** Multiplying the operands from the left, as the source's loop does, gives `Product`. */
  lemma {:induction false} ProductSnoc(ns: seq<nat>, n: nat)
    ensures Product(ns + [n]) == Product(ns) * n
    decreases |ns|
  {
    if ns != [] {
      assert (ns + [n])[1..] == ns[1..] + [n];
      ProductSnoc(ns[1..], n);
      assert ns[0] * (Product(ns[1..]) * n) == (ns[0] * Product(ns[1..])) * n;
    }
  }

  /** The multiplication loop: starting from 1, multiply by each operand in turn. */
  method MultiplyAll(ns: seq<nat>) returns (result: nat)
    ensures result == Product(ns)
  {
    result := 1;
    for i := 0 to |ns|
      invariant result == Product(ns[..i])
    {
      ProductSnoc(ns[..i], ns[i]);
      assert ns[..i + 1] == ns[..i] + [ns[i]];
      result := result * ns[i];
    }
    assert ns[..|ns|] == ns;
  }

  /** The two trigger words, tested on the lower-cased query. */
  predicate SaysAdd(query: string) { Contains(Lower(query), "add") }

  predicate SaysMultiply(query: string) { Contains(Lower(query), "multiply") }

  /** `CalculatorAgent.run`. "add" is tested first, so it wins over "multiply";
      any non-`None` answer is the canonical decimal form of a non-negative number. */
  function Run(query: string): (r: Option<string>)
    ensures r.None? <==> !SaysAdd(query) && !SaysMultiply(query)
    ensures r.Some? ==> IsCanonical(r.value)
    ensures SaysAdd(query) ==> r.Some? && Value(r.value) == Sum(Operands(query))
    ensures !SaysAdd(query) && SaysMultiply(query) ==>
              r.Some? && Value(r.value) == Product(Operands(query))
  {
    if SaysAdd(query) then Some(Show(Sum(Operands(query))))
    else if SaysMultiply(query) then Some(Show(Product(Operands(query))))
    else None
  }

  /** A query without a digit has no operands. */
  lemma NoDigitNoOperands(query: string)
    requires forall i :: 0 <= i < |query| ==> !IsDigit(query[i])
    ensures Operands(query) == []
  {
    var ts := Split(query);
    forall k | 0 <= k < |ts| ensures !IsDigits(ts[k]) {
      ConcatHolds(ts, k, 0);
      NonSpaceFrom(query, ts[k][0]);
    }
    NoDigitFields(ts);
  }

  /** Fields none of which passes `isdigit()` give no operands. */
  lemma {:induction false} NoDigitFields(ts: seq<string>)
    requires forall k :: 0 <= k < |ts| ==> !IsDigits(ts[k])
    ensures DigitFields(ts) == []
    decreases |ts|
  {
    if ts != [] {
      NoDigitFields(ts[1..]);
    }
  }

  /** "add" without any whole-number word answers "0". */
  lemma AddWithoutOperands(query: string)
    requires SaysAdd(query) && Operands(query) == []
    ensures Run(query) == Some("0")
  {
    ShowValue("0");
  }

  /** "multiply" (without "add") and no whole-number word answers "1". */
  lemma MultiplyWithoutOperands(query: string)
    requires !SaysAdd(query) && SaysMultiply(query) && Operands(query) == []
    ensures Run(query) == Some("1")
  {
    ShowValue("1");
  }

  /** The query `keyword a b`, the numbers written in decimal. */
  function Command(keyword: string, a: nat, b: nat): string {
    keyword + " " + Show(a) + " " + Show(b)
  }

  /** The operands of `keyword a b` are `a` and `b`, whatever the keyword. */
  lemma OperandsOfCommand(keyword: string, a: nat, b: nat)
    requires IsField(keyword) && !IsDigits(keyword)
    ensures Operands(Command(keyword, a, b)) == [a, b]
  {
    var x, y := Show(a), Show(b);
    var ts := [keyword, x, y];
    assert ts[1..] == [x, y] && ts[1..][1..] == [y];
    assert JoinSpace([y]) == y;
    assert JoinSpace([x, y]) == x + " " + y;
    assert JoinSpace(ts) == keyword + " " + (x + " " + y);
    assert Command(keyword, a, b) == JoinSpace(ts);
    assert IsDigits(x);
    assert IsDigits(y);
    SplitJoin(ts);
    assert DigitFields([y]) == [y] by { assert [y][1..] == []; }
    assert DigitFields(ts) == [x, y];
  }

  /** A lower-case keyword in front of `rest` is seen by the case-insensitive test. */
  lemma KeywordSeen(keyword: string, rest: string)
    requires forall i :: 0 <= i < |keyword| ==> !IsUpper(keyword[i])
    ensures Contains(Lower(keyword + rest), keyword)
  {
    LowerAppend(keyword, rest);
    LowerNoUpper(keyword);
    ContainsPrefix(keyword, Lower(rest));
  }

  lemma SumTwo(a: nat, b: nat)
    ensures Sum([a, b]) == a + b
  {
    assert [a, b][1..] == [b] && [b][1..] == [];
    assert Sum([b]) == b;
  }

  lemma ProductTwo(a: nat, b: nat)
    ensures Product([a, b]) == a * b
  {
    assert [a, b][1..] == [b] && [b][1..] == [];
    assert Product([b]) == b;
  }

  /** `add a b` trips the case-insensitive "add" test. */
  lemma AddCommandSaysAdd(a: nat, b: nat)
    ensures SaysAdd(Command("add", a, b))
  {
    var rest := " " + Show(a) + " " + Show(b);
    assert Command("add", a, b) == "add" + rest;
    KeywordSeen("add", rest);
  }

  /** `"add a b"` answers the decimal form of `a + b`. */
  lemma AddTwo(a: nat, b: nat)
    ensures Run(Command("add", a, b)) == Some(Show(a + b))
  {
    var q := Command("add", a, b);
    AddCommandSaysAdd(a, b);
    assert Operands(q) == [a, b] by {
      assert IsField("add") && !IsDigits("add") by { assert "add"[0] == 'a'; }
      OperandsOfCommand("add", a, b);
    }
    SumTwo(a, b);
    assert Run(q) == Some(Show(Sum(Operands(q))));
  }

  /** Neither "multiply" nor the spaces and digits after it hold an 'a',
      so the "add" test fails on a multiplication command. */
  lemma MultiplyCommandNotAdd(a: nat, b: nat)
    ensures !SaysAdd(Command("multiply", a, b))
  {
    var x, y := Show(a), Show(b);
    var rest := " " + x + " " + y;
    var q := Command("multiply", a, b);
    assert q == "multiply" + rest;
    assert forall i :: 0 <= i < |rest| ==> rest[i] == ' ' || IsDigit(rest[i]) by {
      forall i | 0 <= i < |rest| ensures rest[i] == ' ' || IsDigit(rest[i]) {
        if 1 <= i < 1 + |x| { assert rest[i] == x[i - 1]; }
        else if 2 + |x| <= i { assert rest[i] == y[i - 2 - |x|]; }
      }
    }
    var kw := "multiply";
    assert forall i :: 0 <= i < |kw| ==> !IsUpper(kw[i]) && kw[i] != 'a';
    LowerAppend(kw, rest);
    LowerNoUpper(kw);
    LowerNoUpper(rest);
    var l := Lower(q);
    assert l == kw + rest;
    forall i | 0 <= i < |l| ensures l[i] != 'a' {
      if i >= |kw| { assert l[i] == rest[i - |kw|]; }
    }
    MissingChar(l, "add", 0);
  }

  /** `"multiply a b"` answers the decimal form of `a * b`. */
  lemma MultiplyTwo(a: nat, b: nat)
    ensures Run(Command("multiply", a, b)) == Some(Show(a * b))
  {
    var q := Command("multiply", a, b);
    var rest := " " + Show(a) + " " + Show(b);
    assert q == "multiply" + rest;
    assert SaysMultiply(q) by {
      KeywordSeen("multiply", rest);
    }
    MultiplyCommandNotAdd(a, b);
    assert Operands(q) == [a, b] by {
      assert IsField("multiply") && !IsDigits("multiply") by { assert "multiply"[0] == 'm'; }
      OperandsOfCommand("multiply", a, b);
    }
    ProductTwo(a, b);
    var total := Product(Operands(q));
    assert total == a * b;
    assert Run(q) == Some(Show(total));
  }
}

=== FILE: chat.dfy ===
/** `ChatAgent.run` (components.py): the language-model fallback and its
    append-only transcript. */
module Chat {
  import opened Optional

  /** The model the agent is built with unless told otherwise. */
  const DefaultModel: string := "HuggingFaceH4/zephyr-7b-beta"

  /** The prefix of the answer synthesised when the remote call raises. */
  const FailurePrefix: string := "Sorry, the model could not generate a response: "

  /** One saved exchange: the user's input and the agent's output. */
  datatype Turn = Turn(input: string, output: string)

  /** The agent: the client's token, the model name and the transcript so far. */
  datatype Agent = Agent(token: string, model: string, memory: seq<Turn>)

  /** What the completion call depends on: the client's token, the model, the
      transcript rendered into the prompt, and the new query. */
  datatype Request = Request(token: string, model: string, history: seq<Turn>, query: string)

  /** The remote call's outcome: the first choice's message text, or the
      rendered text of the exception it raised. */
  datatype Reply = Completion(text: string) | Failed(detail: string)

  type Completer = Request -> Reply

  /** A freshly built agent has an empty transcript. */
  function NewAgent(token: string): (a: Agent)
    ensures a.memory == [] && a.token == token && a.model == DefaultModel
  {
    Agent(token, DefaultModel, [])
  }

  /** The text the agent answers with for a given remote outcome: the completion
      itself, or the fixed apology followed by the error text, which can be read
      back from it. */
  function Answer(reply: Reply): (r: string)
    ensures reply.Completion? ==> r == reply.text
    ensures reply.Failed? ==> && |FailurePrefix| <= |r|
                              && r[..|FailurePrefix|] == FailurePrefix
                              && r[|FailurePrefix|..] == reply.detail
  {
    match reply
    case Completion(text) => text
    case Failed(detail) => FailurePrefix + detail
  }

  /** `ChatAgent.run`: one completion request carrying the whole transcript, then
      exactly one turn `(query, answer)` appended, whether the call succeeded or
      failed; earlier turns, token and model are untouched. */
  function Run(agent: Agent, query: string, complete: Completer): (r: Step<Agent>)
    ensures r.state.token == agent.token && r.state.model == agent.model
    ensures |r.state.memory| == |agent.memory| + 1
    ensures r.state.memory[..|agent.memory|] == agent.memory
    ensures r.state.memory[|agent.memory|] == Turn(query, r.reply)
    ensures complete(Request(agent.token, agent.model, agent.memory, query)).Failed? ==>
              r.reply == FailurePrefix + complete(Request(agent.token, agent.model, agent.memory, query)).detail
    ensures complete(Request(agent.token, agent.model, agent.memory, query)).Completion? ==>
              r.reply == complete(Request(agent.token, agent.model, agent.memory, query)).text
  {
    var reply := complete(Request(agent.token, agent.model, agent.memory, query));
    var result := Answer(reply);
    Step(result, agent.(memory := agent.memory + [Turn(query, result)]))
  }

  /** The agent after answering `queries` one after another. */
  function RunAll(agent: Agent, queries: seq<string>, complete: Completer): Agent
    decreases |queries|
  {
    if queries == [] then agent
    else RunAll(Run(agent, queries[0], complete).state, queries[1..], complete)
  }

  /** After N calls the transcript holds the old turns followed by exactly N new
      turns whose inputs are the N queries in call order. */
  lemma {:induction false} TranscriptOrder(agent: Agent, queries: seq<string>, complete: Completer)
    ensures var after := RunAll(agent, queries, complete);
            && |after.memory| == |agent.memory| + |queries|
            && after.memory[..|agent.memory|] == agent.memory
            && forall k :: 0 <= k < |queries| ==> after.memory[|agent.memory| + k].input == queries[k]
    decreases |queries|
  {
    if queries != [] {
      var next := Run(agent, queries[0], complete).state;
      TranscriptOrder(next, queries[1..], complete);
      var after := RunAll(agent, queries, complete);
      assert after == RunAll(next, queries[1..], complete);
      assert after.memory[..|agent.memory|] == next.memory[..|next.memory|][..|agent.memory|];
      forall k | 0 <= k < |queries|
        ensures after.memory[|agent.memory| + k].input == queries[k]
      {
        if k == 0 {
          assert after.memory[|agent.memory|] == after.memory[..|next.memory|][|agent.memory|];
        } else {
          assert queries[k] == queries[1..][k - 1];
        }
      }
    }
  }
}

=== FILE: decimal.dfy ===
/** Decimal digit strings: Python's `str.isdigit()`, `int(s)` and `str(n)` on
    non-negative integers, restricted to the ASCII digits. */
module Decimal {
  import opened Text

  predicate AllDigits(s: string) {
    forall i :: 0 <= i < |s| ==> IsDigit(s[i])
  }

  /** `s.isdigit()`: non-empty and made only of the digits 0..9. Such a string
      holds no whitespace, so it can be a field of `split()`. */
  predicate IsDigits(s: string)
    ensures IsDigits(s) ==> IsField(s)
  {
    |s| > 0 && AllDigits(s)
  }

  /** A digit string without superfluous leading zeros, as `str(n)` prints it. */
  predicate IsCanonical(s: string) {
    IsDigits(s) && (|s| > 1 ==> s[0] != '0')
  }

  function DigitValue(c: char): (d: nat)
    requires IsDigit(c)
    ensures d < 10
  {
    c as int - '0' as int
  }

  function DigitChar(d: nat): (c: char)
    requires d < 10
    ensures IsDigit(c) && DigitValue(c) == d
  {
    ('0' as int + d) as char
  }

  /** `int(s)` for a digit string: leading zeros are allowed and ignored. */
  function Value(s: string): nat
    requires AllDigits(s)
  {
    if s == [] then 0 else Value(s[..|s| - 1]) * 10 + DigitValue(s[|s| - 1])
  }

  /** `int(s)` ignores a leading zero. */
  lemma {:induction false} ValueLeadingZero(s: string)
    requires AllDigits(s) && |s| > 0 && s[0] == '0'
    ensures Value(s) == Value(s[1..])
    decreases |s|
  {
    if |s| > 1 {
      var init := s[..|s| - 1];
      assert init[1..] == s[1..][..|s| - 2];
      ValueLeadingZero(init);
    }
  }

  /** `str(n)` for a non-negative `n`: a canonical digit string that reads back as `n`. */
  function Show(n: nat): (s: string)
    ensures IsCanonical(s)
    ensures Value(s) == n
  {
    if n < 10 then [DigitChar(n)]
    else
      var prefix := Show(n / 10);
      var s := prefix + [DigitChar(n % 10)];
      assert s[..|s| - 1] == prefix;
      s
  }

  /** A canonical digit string other than "0" denotes a positive number. */
  lemma {:induction false} CanonicalPositive(s: string)
    requires IsCanonical(s) && s != "0"
    ensures Value(s) > 0
    decreases |s|
  {
    if |s| > 1 {
      var prefix := s[..|s| - 1];
      assert prefix[0] == s[0];
      assert prefix != "0" by { assert prefix[0] != '0'; }
      CanonicalPositive(prefix);
    } else {
      assert s == [s[0]];
    }
  }

  /** `str(int(s)) == s` for every canonical digit string. */
  lemma {:induction false} ShowValue(s: string)
    requires IsCanonical(s)
    ensures Show(Value(s)) == s
    decreases |s|
  {
    if |s| > 1 {
      var prefix := s[..|s| - 1];
      assert prefix[0] == s[0];
      assert IsCanonical(prefix);
      assert prefix != "0" by { assert prefix[0] != '0'; }
      CanonicalPositive(prefix);
      ShowValue(prefix);
      var n := Value(s);
      assert n / 10 == Value(prefix) && n % 10 == DigitValue(s[|s| - 1]);
      assert s == prefix + [s[|s| - 1]];
    } else {
      assert s == [s[0]];
    }
  }
}

=== FILE: master.dfy ===
/** `MasterAgent` (components.py): the calculator, weather and search agents in a
    fixed order, the chat agent as the fallback. */
module Master {
  import opened Optional
  import opened Text
  import Calculator
  import Weather
  import Search
  import Chat
  import Decimal

  /** The three remote services, as functions of what is sent to them. */
  datatype Services = Services(
    weather: Weather.Request -> Weather.Reply,
    search: Search.Provider,
    complete: Chat.Completer)

  /** The master agent: the weather key and the chat agent; the calculator and
      search agents hold no state. */
  datatype Agent = Agent(weatherKey: string, chat: Chat.Agent)

  /** A freshly built master agent: the weather key and a new chat agent for the token. */
  function NewAgent(hfToken: string, weatherKey: string): (a: Agent)
    ensures a.weatherKey == weatherKey && a.chat == Chat.NewAgent(hfToken)
  {
    Agent(weatherKey, Chat.NewAgent(hfToken))
  }

  /** Python truthiness of a handler's answer: `None` and `""` both decline. */
  predicate Answers(r: Option<string>) {
    r.Some? && r.value != ""
  }

  /** The three pattern handlers' answers, in routing order. */
  function Handlers(agent: Agent, query: string, services: Services): seq<Option<string>> {
    [ Calculator.Run(query),
      Weather.Run(query, agent.weatherKey, services.weather),
      Search.Run(query, services.search) ]
  }

  /** The index of the first answer that is truthy, if any. */
  function FirstAnswering(rs: seq<Option<string>>): (k: Option<nat>)
    ensures k.None? <==> forall j :: 0 <= j < |rs| ==> !Answers(rs[j])
    ensures k.Some? ==> k.value < |rs| && Answers(rs[k.value])
    ensures k.Some? ==> forall j :: 0 <= j < k.value ==> !Answers(rs[j])
    decreases |rs|
  {
    if rs == [] then None
    else if Answers(rs[0]) then Some(0)
    else match FirstAnswering(rs[1..])
         case None => None
         case Some(k) => Some(k + 1)
  }

  /** With three handlers, the first answering one is found by testing them in order. */
  lemma FirstOfThree(a: Option<string>, b: Option<string>, c: Option<string>)
    ensures FirstAnswering([a, b, c]) ==
            if Answers(a) then Some(0) else if Answers(b) then Some(1)
            else if Answers(c) then Some(2) else None
  {
    assert [a, b, c][1..] == [b, c] && [b, c][1..] == [c] && [c][1..] == [];
    assert FirstAnswering([c]) == if Answers(c) then Some(0) else None;
    assert FirstAnswering([b, c]) == if Answers(b) then Some(0) else if Answers(c) then Some(1) else None;
  }

  /** `MasterAgent.route`: the calculator, weather and search agents are asked in
      that order and the first truthy answer is returned without touching the
      state; only when all three decline does the chat agent answer, and then its
      transcript gains exactly the turn `(query, reply)`. */
  function Route(agent: Agent, query: string, services: Services): (r: Step<Agent>)
    ensures var hs := Handlers(agent, query, services);
            (match FirstAnswering(hs)
             case Some(k) => r.reply == hs[k].value && r.state == agent
             case None =>
               && r.state.weatherKey == agent.weatherKey
               && r.state.chat.token == agent.chat.token
               && r.state.chat.model == agent.chat.model
               && r.reply == Chat.Run(agent.chat, query, services.complete).reply
               && r.state.chat.memory == agent.chat.memory + [Chat.Turn(query, r.reply)])
  {
    var hs := Handlers(agent, query, services);
    FirstOfThree(hs[0], hs[1], hs[2]);
    assert hs == [hs[0], hs[1], hs[2]];
    var arithmetic := Calculator.Run(query);
    if Answers(arithmetic) then Step(arithmetic.value, agent)
    else
      var weather := Weather.Run(query, agent.weatherKey, services.weather);
      if Answers(weather) then Step(weather.value, agent)
      else
        var search := Search.Run(query, services.search);
        if Answers(search) then Step(search.value, agent)
        else
          var chat := Chat.Run(agent.chat, query, services.complete);
          Step(chat.reply, agent.(chat := chat.state))
  }

  /** When each handler's answer counts: the calculator's whenever it answers (its
      decimal is never empty), the weather agent's whenever the pattern matches
      (its answer is never empty), and the search agent's unless the first result
      it reports has an empty body. */
  lemma HandlerTruthiness(agent: Agent, query: string, services: Services)
    ensures Answers(Calculator.Run(query)) <==> Calculator.SaysAdd(query) || Calculator.SaysMultiply(query)
    ensures Answers(Weather.Run(query, agent.weatherKey, services.weather))
            <==> Weather.Run(query, agent.weatherKey, services.weather).Some?
    ensures var results := services.search(Search.Term(query));
            Answers(Search.Run(query, services.search))
            <==> Search.MentionsSearch(query) && (results == [] || results[0] != "")
  {
  }

  /** The transcript changes only when all three pattern agents decline. */
  lemma MemoryChangesOnlyOnFallback(agent: Agent, query: string, services: Services)
    ensures Route(agent, query, services).state.chat.memory != agent.chat.memory
            <==> forall j :: 0 <= j < 3 ==> !Answers(Handlers(agent, query, services)[j])
  {
    var r := Route(agent, query, services);
    if FirstAnswering(Handlers(agent, query, services)).None? {
      assert |r.state.chat.memory| == |agent.chat.memory| + 1;
    }
  }

  /** A query mentioning "add" is answered by the calculator, whatever else it
      says: "weather in addis" gets "0", not a forecast. */
  lemma AddWins(agent: Agent, query: string, services: Services)
    requires Calculator.SaysAdd(query)
    ensures Route(agent, query, services) ==
            Step(Decimal.Show(Calculator.Sum(Calculator.Operands(query))), agent)
  {
    var r := Calculator.Run(query);
    Decimal.ShowValue(r.value);
  }

  /** The calculator's "add" test matches inside words: asking for the weather in
      Addis Ababa yields "0". */
  lemma WeatherInAddis(agent: Agent, services: Services)
    ensures Route(agent, "weather in addis", services) == Step("0", agent)
  {
    var q := "weather in addis";
    assert forall i :: 0 <= i < |q| ==> !IsUpper(q[i]) && !IsDigit(q[i]);
    LowerNoUpper(q);
    assert OccursAt(q, "add", 11);
    ContainsAt(q, "add", 11);
    Calculator.NoDigitNoOperands(q);
    AddWins(agent, q, services);
    assert Decimal.Show(0) == "0";
  }

  /** When all three pattern agents decline and the model call fails, the reply is
      the apology carrying the error text, and it is the turn that gets saved. */
  lemma FallbackFailure(agent: Agent, query: string, services: Services, detail: string)
    requires forall j :: 0 <= j < 3 ==> !Answers(Handlers(agent, query, services)[j])
    requires services.complete(Chat.Request(agent.chat.token, agent.chat.model, agent.chat.memory, query))
             == Chat.Failed(detail)
    ensures Route(agent, query, services).reply == Chat.FailurePrefix + detail
    ensures Route(agent, query, services).state.chat.memory
            == agent.chat.memory + [Chat.Turn(query, Chat.FailurePrefix + detail)]
  {
  }

  /** A search whose first result has an empty body is not an answer: the query
      falls through to the chat agent. */
  lemma EmptySearchBodyFallsThrough(agent: Agent, query: string, services: Services)
    requires !Answers(Calculator.Run(query))
    requires !Answers(Weather.Run(query, agent.weatherKey, services.weather))
    requires Search.MentionsSearch(query)
    requires services.search(Search.Term(query)) != [] && services.search(Search.Term(query))[0] == ""
    ensures Route(agent, query, services).state.chat.memory == agent.chat.memory + [Chat.Turn(query, Route(agent, query, services).reply)]
  {
  }
}

=== FILE: optional.dfy ===
/** Small result wrappers shared by every agent. */
module Optional {

  /** A handler's answer: `None` is Python's `None`, `Some(s)` a returned string. */
  datatype Option<+T> = None | Some(value: T)

  /** The text an agent answers with, together with the agent's state after the call. */
  datatype Step<+S> = Step(reply: string, state: S)
}

=== FILE: search.dfy ===
/** `SearchAgent.run` (components.py): a query mentioning "search" becomes a web
    search for the rest of the query. */
module Search {
  import opened Optional
  import opened Text

  const Keyword: string := "search"

  /** The fixed answer when the provider finds nothing. */
  const NoResults: string := "No results found."

  /** The provider's text search, asked for at most one result: the `body`
      fields of the results it returns, in order. */
  type Provider = string -> seq<string>

  /** The search term: the lower-cased query with every "search" deleted, then stripped. */
  function Term(query: string): (t: string)
    ensures exists i :: StrippedAt(RemoveAll(Lower(query), Keyword), t, i)
    ensures |t| <= |query|
  {
    Strip(RemoveAll(Lower(query), Keyword))
  }

  predicate MentionsSearch(query: string) { Contains(Lower(query), Keyword) }

  /** `SearchAgent.run`: declines exactly when "search" does not occur in the
      lower-cased query; otherwise the first body the provider returns for the
      term, or the fixed "nothing found" answer. */
  function Run(query: string, provider: Provider): (r: Option<string>)
    ensures r.None? <==> !MentionsSearch(query)
    ensures r.Some? && provider(Term(query)) == [] ==> r.value == NoResults
    ensures r.Some? && provider(Term(query)) != [] ==> r.value == provider(Term(query))[0]
  {
    if MentionsSearch(query) then
      var results := provider(Term(query));
      Some(if |results| > 0 then results[0] else NoResults)
    else None
  }

  /** `replace` makes one left-to-right pass, so a "search" formed by joining the
      pieces around a deleted one survives ("sesearcharch" gives "search").
      Deleting leaves the lower-cased query unchanged exactly when it does not
      mention "search". */
  lemma TermDeletesKeyword(query: string)
    ensures RemoveAll(Lower(query), Keyword) == Lower(query) <==> !MentionsSearch(query)
  {
    RemoveAllUnchangedIff(Lower(query), Keyword);
  }

  /** Lower-casing `"search " + rest` lower-cases `rest` only. */
  lemma LowerAfterKeyword(rest: string)
    ensures Lower(Keyword + " " + rest) == Keyword + [' '] + Lower(rest)
  {
    LowerNoUpper(Keyword + " ");
    LowerAppend(Keyword + " ", rest);
  }

  /** Deleting "search" from the front of `" " + l` when `l` holds none. */
  lemma RemoveBeforeRest(l: string)
    requires !Contains(l, Keyword)
    ensures RemoveAll(Keyword + [' '] + l, Keyword) == [' '] + l
  {
    RemoveAllAround(Keyword, ' ', l, Keyword);
    RemoveAllSelf(Keyword);
    RemoveAllUnchangedIff(l, Keyword);
  }

  /** `"search " + rest` searches for `rest`, lower-cased and stripped, when `rest`
      itself does not mention "search". */
  lemma TermOfPlainQuery(rest: string)
    requires !MentionsSearch(rest)
    ensures MentionsSearch(Keyword + " " + rest)
    ensures Term(Keyword + " " + rest) == Strip(Lower(rest))
  {
    var l := Lower(rest);
    LowerAfterKeyword(rest);
    ContainsPrefix(Keyword, [' '] + l);
    assert Keyword + [' '] + l == Keyword + ([' '] + l);
    RemoveBeforeRest(l);
    StripSpacePrefix(' ', l);
  }

  /** Lower-casing `"search " + rest + " search"` lower-cases `rest` only. */
  lemma LowerAroundKeyword(rest: string)
    ensures Lower(Keyword + " " + rest + " " + Keyword)
            == Keyword + [' '] + (Lower(rest) + [' '] + Keyword)
  {
    LowerAfterKeyword(rest + " " + Keyword);
    LowerNoUpper(" " + Keyword);
    LowerAppend(rest, " " + Keyword);
    assert Keyword + " " + rest + " " + Keyword == Keyword + " " + (rest + " " + Keyword);
  }

  /** Deleting "search" from both ends of `" " + l + " "` when `l` holds none. */
  lemma RemoveAroundKeyword(l: string)
    requires !Contains(l, Keyword)
    ensures RemoveAll(Keyword + [' '] + (l + [' '] + Keyword), Keyword) == [' '] + (l + [' '])
  {
    RemoveAllAround(Keyword, ' ', l + [' '] + Keyword, Keyword);
    RemoveAllAround(l, ' ', Keyword, Keyword);
    RemoveAllSelf(Keyword);
    RemoveAllUnchangedIff(l, Keyword);
  }

  /** Every "search" is deleted, not only the first: `"search " + rest + " search"`
      searches for `rest`, lower-cased and stripped, when `rest` itself does not
      mention "search". */
  lemma TermOfSurroundedQuery(rest: string)
    requires !MentionsSearch(rest)
    ensures MentionsSearch(Keyword + " " + rest + " " + Keyword)
    ensures Term(Keyword + " " + rest + " " + Keyword) == Strip(Lower(rest))
  {
    var l := Lower(rest);
    var tail := l + [' '] + Keyword;
    LowerAroundKeyword(rest);
    ContainsPrefix(Keyword, [' '] + tail);
    assert Keyword + [' '] + tail == Keyword + ([' '] + tail);
    RemoveAroundKeyword(l);
    StripSpacePrefix(' ', l + [' ']);
    StripSpaceSuffix(l, ' ');
  }
}

=== FILE: text.dfy ===
/** The Python `str` operations the agents rely on, restricted to ASCII:
    `lower`, `in`, `split()`, `strip()`, `replace(p, "")` and `title()`. */
module Text {

  /** `str.isspace()` on ASCII: space, tab, line feed, vertical tab, form feed,
      carriage return and the four information separators 0x1C..0x1F.
      The same class is used by `split()`, `strip()` and the regex `\s`. */
  predicate IsSpace(c: char) {
    c == ' ' || ('\U{09}' <= c <= '\U{0D}') || ('\U{1C}' <= c <= '\U{1F}')
  }

  predicate IsUpper(c: char) { 'A' <= c <= 'Z' }

  predicate IsLowerLetter(c: char) { 'a' <= c <= 'z' }

  predicate IsLetter(c: char) { IsUpper(c) || IsLowerLetter(c) }

  predicate IsDigit(c: char) { '0' <= c <= '9' }

  /** The regex class `\w` on ASCII: letters, digits and underscore. */
  predicate IsWordChar(c: char) { IsLetter(c) || IsDigit(c) || c == '_' }

  predicate AllSpace(s: string) {
    forall i :: 0 <= i < |s| ==> IsSpace(s[i])
  }

  predicate NoSpace(s: string) {
    forall i :: 0 <= i < |s| ==> !IsSpace(s[i])
  }

  // ---------------------------------------------------------------- case

  /** One character of `str.lower()`: a capital becomes the small letter at the
      same place in the alphabet. */
  function LowerChar(c: char): (d: char)
    ensures !IsUpper(d)
    ensures IsUpper(c) ==> IsLowerLetter(d) && d as int - 'a' as int == c as int - 'A' as int
    ensures !IsUpper(c) ==> d == c
  {
    if IsUpper(c) then (c as int + 32) as char else c
  }

  /** One character of `str.upper()`: a small letter becomes the capital at the
      same place in the alphabet. */
  function UpperChar(c: char): (d: char)
    ensures !IsLowerLetter(d)
    ensures IsLowerLetter(c) ==> IsUpper(d) && d as int - 'A' as int == c as int - 'a' as int
    ensures IsLowerLetter(c) ==> LowerChar(d) == c
    ensures !IsLowerLetter(c) ==> d == c
  {
    if IsLowerLetter(c) then (c as int - 32) as char else c
  }

  /** `str.lower()`: every ASCII capital becomes its small letter, nothing else moves. */
  function Lower(s: string): (r: string)
    ensures |r| == |s|
    ensures forall i :: 0 <= i < |s| ==> r[i] == LowerChar(s[i])
  {
    seq(|s|, i requires 0 <= i < |s| => LowerChar(s[i]))
  }

  lemma LowerAppend(a: string, b: string)
    ensures Lower(a + b) == Lower(a) + Lower(b)
  {
  }

  /** A string without capitals is its own lower-case form. */
  lemma LowerNoUpper(s: string)
    requires forall i :: 0 <= i < |s| ==> !IsUpper(s[i])
    ensures Lower(s) == s
  {
  }

  // ---------------------------------------------------------------- substring

  /** `p` occurs in `s` starting at index `i`. */
  predicate OccursAt(s: string, p: string, i: int) {
    0 <= i && i + |p| <= |s| && s[i..i + |p|] == p
  }

  predicate StartsWith(s: string, p: string) {
    |p| <= |s| && s[..|p|] == p
  }

  /** Python's `p in s`, scanning `s` from the left. */
  predicate Contains(s: string, p: string)
    ensures Contains(s, p) ==> |p| <= |s|
    decreases |s|
  {
    StartsWith(s, p) || (|s| > 0 && Contains(s[1..], p))
  }

  /** `Contains` holds exactly when `p` occurs at some index of `s`. */
  lemma {:induction false} ContainsIffOccurs(s: string, p: string)
    ensures Contains(s, p) <==> exists i :: OccursAt(s, p, i)
    decreases |s|
  {
    if StartsWith(s, p) {
      assert OccursAt(s, p, 0);
    } else if |s| == 0 {
    } else {
      ContainsIffOccurs(s[1..], p);
      if Contains(s[1..], p) {
        var i :| OccursAt(s[1..], p, i);
        assert s[i + 1..i + 1 + |p|] == s[1..][i..i + |p|];
        assert OccursAt(s, p, i + 1);
      }
      if exists i :: OccursAt(s, p, i) {
        var i :| OccursAt(s, p, i);
        assert s[1..][i - 1..i - 1 + |p|] == s[i..i + |p|];
        assert OccursAt(s[1..], p, i - 1);
      }
    }
  }

  /** A string that contains `p` at a known index satisfies `Contains`. */
  lemma ContainsAt(s: string, p: string, i: int)
    requires OccursAt(s, p, i)
    ensures Contains(s, p)
  {
    ContainsIffOccurs(s, p);
  }

  /** A string lacking one of the characters of `p` does not contain `p`. */
  lemma MissingChar(s: string, p: string, j: nat)
    requires j < |p| && forall i :: 0 <= i < |s| ==> s[i] != p[j]
    ensures !Contains(s, p)
  {
    ContainsIffOccurs(s, p);
    forall i | OccursAt(s, p, i) ensures false {
    }
  }

  /** A prefix that is `p` makes `Contains` true of any extension. */
  lemma ContainsPrefix(p: string, rest: string)
    ensures Contains(p + rest, p)
  {
    assert (p + rest)[..|p|] == p;
  }

  // ---------------------------------------------------------------- split

  /** Concatenation of a list of strings. */
  function Concat(ts: seq<string>): string {
    if ts == [] then [] else ts[0] + Concat(ts[1..])
  }

  /** `s` with every whitespace character deleted. */
  function NonSpace(s: string): (r: string)
    ensures NoSpace(r)
  {
    if s == [] then []
    else if IsSpace(s[0]) then NonSpace(s[1..])
    else [s[0]] + NonSpace(s[1..])
  }

  /** Every character of every string of `ts` occurs in their concatenation. */
  lemma {:induction false} ConcatHolds(ts: seq<string>, k: nat, i: nat)
    requires k < |ts| && i < |ts[k]|
    ensures ts[k][i] in Concat(ts)
    decreases k
  {
    if k == 0 {
      assert Concat(ts) == ts[0] + Concat(ts[1..]);
      assert Concat(ts)[i] == ts[0][i];
    } else {
      ConcatHolds(ts[1..], k - 1, i);
    }
  }

  /** Deleting whitespace introduces no new characters. */
  lemma {:induction false} NonSpaceFrom(s: string, c: char)
    requires c in NonSpace(s)
    ensures c in s
    decreases |s|
  {
    if s != [] && c != s[0] {
      if !IsSpace(s[0]) {
        assert NonSpace(s) == [s[0]] + NonSpace(s[1..]);
      }
      NonSpaceFrom(s[1..], c);
    }
  }

  /** A field produced by `split()`: non-empty, without whitespace. */
  predicate IsField(t: string) {
    |t| > 0 && NoSpace(t)
  }

  /** Putting one more string in front of a list puts it in front of the concatenation. */
  lemma ConcatCons(t: string, ts: seq<string>)
    ensures Concat([t] + ts) == t + Concat(ts)
  {
    assert ([t] + ts)[0] == t && ([t] + ts)[1..] == ts;
  }

  /** `split()` continued from a field `cur` still being read. */
  function SplitFrom(s: string, cur: string): (ts: seq<string>)
    requires NoSpace(cur)
    ensures forall k :: 0 <= k < |ts| ==> IsField(ts[k])
    ensures Concat(ts) == cur + NonSpace(s)
    decreases |s|
  {
    if s == [] then
      if cur == [] then [] else [cur]
    else if IsSpace(s[0]) then
      if cur == [] then SplitFrom(s[1..], [])
      else
        var rest := SplitFrom(s[1..], []);
        ConcatCons(cur, rest);
        assert forall k :: 1 <= k < |rest| + 1 ==> ([cur] + rest)[k] == rest[k - 1];
        [cur] + rest
    else
      assert NoSpace(cur + [s[0]]);
      assert NonSpace(s) == [s[0]] + NonSpace(s[1..]);
      assert cur + [s[0]] + NonSpace(s[1..]) == cur + ([s[0]] + NonSpace(s[1..]));
      SplitFrom(s[1..], cur + [s[0]])
  }

  /** Python's `s.split()` with no separator: the maximal runs of non-whitespace
      characters, in order. No field is empty or holds whitespace, and gluing
      the fields back together gives `s` without its whitespace. */
  function Split(s: string): (ts: seq<string>)
    ensures forall k :: 0 <= k < |ts| ==> IsField(ts[k])
    ensures Concat(ts) == NonSpace(s)
  {
    SplitFrom(s, [])
  }

  /** Fields joined by single spaces. */
  function JoinSpace(ts: seq<string>): string {
    if |ts| == 0 then []
    else if |ts| == 1 then ts[0]
    else ts[0] + " " + JoinSpace(ts[1..])
  }

  /** Reading a run of non-space characters extends the current field. */
  lemma {:induction false} SplitFromField(t: string, rest: string, cur: string)
    requires NoSpace(cur) && NoSpace(t)
    ensures SplitFrom(t + rest, cur) == SplitFrom(rest, cur + t)
    decreases |t|
  {
    if t != [] {
      assert (t + rest)[0] == t[0];
      assert (t + rest)[1..] == t[1..] + rest;
      assert NoSpace(t[1..]);
      SplitFromField(t[1..], rest, cur + [t[0]]);
      assert cur + [t[0]] + t[1..] == cur + t;
    } else {
      assert t + rest == rest;
      assert cur + t == cur;
    }
  }

  /** `split()` undoes joining fields with single spaces. */
  lemma {:induction false} SplitJoin(ts: seq<string>)
    requires forall k :: 0 <= k < |ts| ==> IsField(ts[k])
    ensures Split(JoinSpace(ts)) == ts
    decreases |ts|
  {
    if |ts| == 0 {
    } else if |ts| == 1 {
      SplitFromField(ts[0], [], []);
      assert ts[0] + [] == ts[0];
      assert [] + ts[0] == ts[0];
    } else {
      var tail := JoinSpace(ts[1..]);
      assert JoinSpace(ts) == ts[0] + (" " + tail);
      SplitFromField(ts[0], " " + tail, []);
      assert [] + ts[0] == ts[0];
      assert (" " + tail)[0] == ' ';
      assert (" " + tail)[1..] == tail;
      SplitJoin(ts[1..]);
      assert [ts[0]] + ts[1..] == ts;
    }
  }

  /** A whitespace character ends the field being read: what follows it is
      split on its own. */
  lemma {:induction false} SplitFromSpace(a: string, c: char, b: string, cur: string)
    requires NoSpace(cur) && IsSpace(c)
    ensures SplitFrom(a + [c] + b, cur) == SplitFrom(a, cur) + SplitFrom(b, [])
    decreases |a|
  {
    var s := a + [c] + b;
    if a == [] {
      assert s[0] == c && s[1..] == b;
    } else {
      assert s[0] == a[0] && s[1..] == a[1..] + [c] + b;
      if IsSpace(a[0]) {
        SplitFromSpace(a[1..], c, b, []);
        if cur != [] {
          assert [cur] + (SplitFrom(a[1..], []) + SplitFrom(b, []))
              == ([cur] + SplitFrom(a[1..], [])) + SplitFrom(b, []);
        }
      } else {
        assert NoSpace(cur + [a[0]]);
        SplitFromSpace(a[1..], c, b, cur + [a[0]]);
      }
    }
  }

  /** `split()` cuts at every whitespace character: the fields of `a`, then those of `b`. */
  lemma SplitSpace(a: string, c: char, b: string)
    requires IsSpace(c)
    ensures Split(a + [c] + b) == Split(a) + Split(b)
  {
    SplitFromSpace(a, c, b, []);
  }

  /** A run of non-whitespace characters is one field: it is never cut apart. */
  lemma SplitField(t: string)
    requires IsField(t)
    ensures Split(t) == [t]
  {
    SplitFromField(t, [], []);
    assert t + [] == t;
    assert [] + t == t;
  }

  /** A string of whitespace only has no fields. */
  lemma {:induction false} SplitAllSpace(s: string)
    requires AllSpace(s)
    ensures Split(s) == []
    decreases |s|
  {
    if s != [] {
      SplitAllSpace(s[1..]);
    }
  }

  // ---------------------------------------------------------------- strip

  /** The index of the first non-whitespace character at or after `i`, or `|s|`. */
  function SkipSpace(s: string, i: nat): (k: nat)
    requires i <= |s|
    ensures i <= k <= |s|
    ensures forall m :: i <= m < k ==> IsSpace(s[m])
    ensures k == |s| || !IsSpace(s[k])
    decreases |s| - i
  {
    if i < |s| && IsSpace(s[i]) then SkipSpace(s, i + 1) else i
  }

  /** Walking back from `j` to no further than `lo`: the index just after the
      last non-whitespace character, or `lo`. */
  function SkipSpaceBack(s: string, lo: nat, j: nat): (k: nat)
    requires lo <= j <= |s|
    ensures lo <= k <= j
    ensures forall m :: k <= m < j ==> IsSpace(s[m])
    ensures k == lo || !IsSpace(s[k - 1])
    decreases j
  {
    if lo < j && IsSpace(s[j - 1]) then SkipSpaceBack(s, lo, j - 1) else j
  }

  /** `r` sits at index `i` of `s`, only whitespace surrounds it, and it neither
      begins nor ends with whitespace. */
  predicate StrippedAt(s: string, r: string, i: int) {
    && 0 <= i && i + |r| <= |s|
    && r == s[i..i + |r|]
    && (forall m :: 0 <= m < i ==> IsSpace(s[m]))
    && (forall m :: i + |r| <= m < |s| ==> IsSpace(s[m]))
    && (r != [] ==> !IsSpace(s[i]) && !IsSpace(s[i + |r| - 1]))
  }

  /** `str.strip()` with no argument. */
  function Strip(s: string): (r: string)
    ensures exists i :: StrippedAt(s, r, i)
  {
    var i := SkipSpace(s, 0);
    var j := SkipSpaceBack(s, i, |s|);
    assert StrippedAt(s, s[i..j], i);
    s[i..j]
  }

  /** The characterisation of `Strip` pins it down: there is only one such `r`. */
  lemma StrippedAtUnique(s: string, r1: string, i1: int, r2: string, i2: int)
    requires StrippedAt(s, r1, i1) && StrippedAt(s, r2, i2)
    ensures r1 == r2
  {
    if r1 != [] && r2 != [] {
      assert i1 == i2;
      assert i1 + |r1| == i2 + |r2|;
    }
  }

  /** A string without surrounding whitespace strips to itself. */
  lemma StripUnchanged(s: string)
    requires s == [] || (!IsSpace(s[0]) && !IsSpace(s[|s| - 1]))
    ensures Strip(s) == s
  {
    assert StrippedAt(s, s, 0) by { assert s[0..|s|] == s; }
    var i :| StrippedAt(s, Strip(s), i);
    StrippedAtUnique(s, s, 0, Strip(s), i);
  }

  /** Stripping twice is stripping once. */
  lemma StripIdempotent(s: string)
    ensures Strip(Strip(s)) == Strip(s)
  {
    var r := Strip(s);
    var i :| StrippedAt(s, r, i);
    assert r != [] ==> r[0] == s[i] && r[|r| - 1] == s[i + |r| - 1];
    StripUnchanged(r);
  }

  /** Stripping keeps only characters of `s`: a property of every character of
      `s` holds of every character of the result. */
  lemma StripKeeps(s: string, P: char -> bool)
    requires forall k :: 0 <= k < |s| ==> P(s[k])
    ensures forall k :: 0 <= k < |Strip(s)| ==> P(Strip(s)[k])
  {
    var r := Strip(s);
    var i :| StrippedAt(s, r, i);
    forall k | 0 <= k < |r| ensures P(r[k]) {
      assert r[k] == s[i + k];
    }
  }

  /** The result of stripping neither begins nor ends with whitespace. */
  lemma StripEnds(s: string)
    ensures var r := Strip(s); r == [] || (!IsSpace(r[0]) && !IsSpace(r[|r| - 1]))
  {
    var r := Strip(s);
    var i :| StrippedAt(s, r, i);
    if r != [] {
      assert r[0] == s[i] && r[|r| - 1] == s[i + |r| - 1];
    }
  }

  /** Whitespace in front of `s` stays outside the stripped part. */
  lemma StrippedAtCons(c: char, s: string, r: string, i: int)
    requires IsSpace(c) && StrippedAt(s, r, i)
    ensures StrippedAt([c] + s, r, i + 1)
  {
    var t := [c] + s;
    assert t[i + 1..i + 1 + |r|] == s[i..i + |r|];
    assert forall m :: 1 <= m < |t| ==> t[m] == s[m - 1];
  }

  /** Whitespace after `s` stays outside the stripped part. */
  lemma StrippedAtSnoc(s: string, c: char, r: string, i: int)
    requires IsSpace(c) && StrippedAt(s, r, i)
    ensures StrippedAt(s + [c], r, i)
  {
    var t := s + [c];
    assert t[i..i + |r|] == s[i..i + |r|];
    assert forall m :: 0 <= m < |s| ==> t[m] == s[m];
  }

  /** A whitespace character in front of `s` does not change what `strip()` returns. */
  lemma StripSpacePrefix(c: char, s: string)
    requires IsSpace(c)
    ensures Strip([c] + s) == Strip(s)
  {
    var r := Strip(s);
    var i :| StrippedAt(s, r, i);
    StrippedAtCons(c, s, r, i);
    var t := [c] + s;
    var j :| StrippedAt(t, Strip(t), j);
    StrippedAtUnique(t, r, i + 1, Strip(t), j);
  }

  /** A whitespace character after `s` does not change what `strip()` returns. */
  lemma StripSpaceSuffix(s: string, c: char)
    requires IsSpace(c)
    ensures Strip(s + [c]) == Strip(s)
  {
    var r := Strip(s);
    var i :| StrippedAt(s, r, i);
    StrippedAtSnoc(s, c, r, i);
    var t := s + [c];
    var j :| StrippedAt(t, Strip(t), j);
    StrippedAtUnique(t, r, i, Strip(t), j);
  }

  // ---------------------------------------------------------------- replace

  /** `s.replace(p, "")`: scanning from the left, every non-overlapping
      occurrence of `p` is deleted. */
  function RemoveAll(s: string, p: string): (r: string)
    requires |p| > 0
    ensures |r| <= |s|
    ensures Contains(s, p) ==> |r| <= |s| - |p|
    decreases |s|
  {
    if |s| < |p| then s
    else if s[..|p|] == p then RemoveAll(s[|p|..], p)
    else [s[0]] + RemoveAll(s[1..], p)
  }

  /** `a + w` begins with `p` only if `a` does, when `w` begins with a character
      that is not in `p`. */
  lemma PrefixBeforeChar(a: string, w: string, p: string)
    requires |w| > 0 && w[0] !in p
    requires StartsWith(a + w, p)
    ensures StartsWith(a, p)
  {
    var s := a + w;
    assert s[|a|] == w[0];
    assert forall k :: 0 <= k < |p| ==> s[k] != w[0];
    assert a[..|p|] == s[..|p|];
  }

  /** Deletion at a string that starts with `p`. */
  lemma RemoveAllMatch(s: string, p: string)
    requires 0 < |p| && StartsWith(s, p)
    ensures RemoveAll(s, p) == RemoveAll(s[|p|..], p)
  {
  }

  /** Deletion at a string that does not start with `p` keeps its first character. */
  lemma RemoveAllKeep(s: string, p: string)
    requires |p| > 0 && |s| > 0 && !StartsWith(s, p)
    ensures RemoveAll(s, p) == [s[0]] + RemoveAll(s[1..], p)
  {
    if |s| < |p| {
      assert RemoveAll(s, p) == s;
      assert RemoveAll(s[1..], p) == s[1..];
      assert [s[0]] + s[1..] == s;
    }
  }

  /** The step of `RemoveAllSplit` when `s` starts with `p`: then `a` does as
      well, and both drop that occurrence. */
  lemma SplitMatchStep(s: string, a: string, w: string, p: string)
    requires |p| > 0 && |w| > 0 && w[0] !in p && s == a + w && StartsWith(s, p)
    requires |p| <= |a| ==> RemoveAll(s[|p|..], p) == RemoveAll(a[|p|..], p) + RemoveAll(w, p)
    ensures RemoveAll(s, p) == RemoveAll(a, p) + RemoveAll(w, p)
  {
    PrefixBeforeChar(a, w, p);
    RemoveAllMatch(s, p);
    RemoveAllMatch(a, p);
  }

  /** Regrouping a character in front of two strings. Kept apart from the
      proofs about `RemoveAll`, whose unfoldings make this step costly there. */
  lemma ConsAppend(x: char, u: string, v: string)
    ensures [x] + (u + v) == ([x] + u) + v
  {
  }

  /** Two strings that share their first character and do not start with `p`
      keep that character in front of what remains of their tails. */
  lemma KeepBoth(s: string, a: string, v: string, p: string)
    requires |p| > 0 && |s| > 0 && |a| > 0 && s[0] == a[0]
    requires !StartsWith(s, p) && !StartsWith(a, p)
    requires RemoveAll(s[1..], p) == RemoveAll(a[1..], p) + v
    ensures RemoveAll(s, p) == RemoveAll(a, p) + v
  {
    RemoveAllKeep(s, p);
    RemoveAllKeep(a, p);
    ConsAppend(a[0], RemoveAll(a[1..], p), v);
  }

  /** No occurrence of `p` spans a character that `p` does not hold, so deleting
      from `a + w`, where `w` begins with such a character, deletes from `a` and
      from `w` independently. */
  lemma {:induction false} RemoveAllSplit(a: string, w: string, p: string)
    requires |p| > 0 && |w| > 0 && w[0] !in p
    ensures RemoveAll(a + w, p) == RemoveAll(a, p) + RemoveAll(w, p)
    decreases |a|
  {
    var s := a + w;
    if a == [] {
      assert s == w;
    } else if StartsWith(s, p) {
      PrefixBeforeChar(a, w, p);
      assert s[|p|..] == a[|p|..] + w;
      RemoveAllSplit(a[|p|..], w, p);
      SplitMatchStep(s, a, w, p);
    } else {
      assert s[1..] == a[1..] + w;
      RemoveAllSplit(a[1..], w, p);
      assert !StartsWith(a, p) by {
        if |p| <= |a| { assert a[..|p|] == s[..|p|]; }
      }
      KeepBoth(s, a, RemoveAll(w, p), p);
    }
  }

  /** Deleting works independently on the two sides of a character that `p` does
      not hold: every occurrence is deleted, not only the first. */
  lemma RemoveAllAround(a: string, c: char, b: string, p: string)
    requires |p| > 0 && c !in p
    ensures RemoveAll(a + [c] + b, p) == RemoveAll(a, p) + [c] + RemoveAll(b, p)
  {
    var w := [c] + b;
    assert a + [c] + b == a + w;
    RemoveAllSplit(a, w, p);
    assert !StartsWith(w, p) by {
      if |p| <= |w| { assert w[0] == c && p[0] != c; }
    }
    RemoveAllKeep(w, p);
    assert w[1..] == b;
  }

  /** Deleting `p` from `p` leaves nothing. */
  lemma RemoveAllSelf(p: string)
    requires |p| > 0
    ensures RemoveAll(p, p) == []
  {
    assert p[..|p|] == p && p[|p|..] == [];
  }

  /** `replace` leaves the string unchanged exactly when the pattern does not occur in it. */
  lemma {:induction false} RemoveAllUnchangedIff(s: string, p: string)
    requires |p| > 0
    ensures RemoveAll(s, p) == s <==> !Contains(s, p)
    decreases |s|
  {
    if |s| < |p| {
      NotContainsShort(s, p);
    } else if s[..|p|] == p {
      assert |RemoveAll(s, p)| < |s|;
    } else {
      RemoveAllUnchangedIff(s[1..], p);
      assert ([s[0]] + RemoveAll(s[1..], p))[1..] == RemoveAll(s[1..], p);
      assert s == [s[0]] + s[1..];
    }
  }

  /** A pattern longer than the string cannot occur in it. */
  lemma {:induction false} NotContainsShort(s: string, p: string)
    requires |s| < |p|
    ensures !Contains(s, p)
    decreases |s|
  {
    if |s| > 0 {
      NotContainsShort(s[1..], p);
    }
  }

  // ---------------------------------------------------------------- title

  /** `str.title()` continued after a character that was (`afterLetter`) or was not a letter. */
  function TitleFrom(s: string, afterLetter: bool): (r: string)
    ensures |r| == |s|
    ensures forall i :: 0 <= i < |s| ==>
      r[i] == (if (if i == 0 then afterLetter else IsLetter(s[i - 1])) then LowerChar(s[i]) else UpperChar(s[i]))
    decreases |s|
  {
    if s == [] then []
    else
      var c := if afterLetter then LowerChar(s[0]) else UpperChar(s[0]);
      var rest := TitleFrom(s[1..], IsLetter(s[0]));
      assert forall i :: 1 <= i < |s| ==> s[1..][i - 1] == s[i];
      [c] + rest
  }

  /** Python's `str.title()` on ASCII: a letter is capitalised when the character
      before it is not a letter (or it is first) and made small otherwise;
      every other character is unchanged. */
  function Title(s: string): (r: string)
    ensures |r| == |s|
    ensures forall i :: 0 <= i < |s| ==>
      r[i] == (if i > 0 && IsLetter(s[i - 1]) then LowerChar(s[i]) else UpperChar(s[i]))
  {
    TitleFrom(s, false)
  }

  /** Title-casing changes only case: lower-casing the result gives the lower-cased input. */
  lemma LowerTitle(s: string)
    ensures Lower(Title(s)) == Lower(s)
  {
    var t := Title(s);
    forall i | 0 <= i < |s| ensures LowerChar(t[i]) == LowerChar(s[i]) {
      if i > 0 && IsLetter(s[i - 1]) {
        assert t[i] == LowerChar(s[i]);
      } else {
        assert t[i] == UpperChar(s[i]);
      }
    }
  }
}

=== FILE: weather.dfy ===
/** `WeatherAgent.run` (components.py): finds the city after "weather in ",
    asks the weather service about it and formats the answer. */
module Weather {
  import opened Optional
  import opened Text

  /** The literal part of the pattern `weather in ([\w\s]+)`. */
  const Phrase: string := "weather in "

  /** The fixed answer for any status other than 200. */
  const Apology: string := "Sorry, couldn't fetch weather."

  /** The realtime-weather request: the `location` and `apikey` query parameters. */
  datatype Request = Request(location: string, apiKey: string)

  /** The service's answer: its HTTP status and, for a 200, the two reported
      values already rendered as Python's `str` would render them. */
  datatype Reply = Reply(status: int, temperature: string, weatherCode: string)

  /** A character of the group `[\w\s]`. */
  predicate IsCityChar(c: char) { IsWordChar(c) || IsSpace(c) }

  /** The regex matches at index `i` of `s`: the phrase, then at least one city character. */
  predicate MatchesAt(s: string, i: int) {
    0 <= i && i + |Phrase| < |s| && s[i..i + |Phrase|] == Phrase && IsCityChar(s[i + |Phrase|])
  }

  /** `re.search` from index `from`: the leftmost index at which the pattern matches. */
  function FindFrom(s: string, from: nat): (r: Option<nat>)
    ensures r.None? <==> forall j :: from <= j ==> !MatchesAt(s, j)
    ensures r.Some? ==> from <= r.value && MatchesAt(s, r.value)
    ensures r.Some? ==> forall j :: from <= j < r.value ==> !MatchesAt(s, j)
    decreases |s| - from
  {
    if from + |Phrase| >= |s| then None
    else if MatchesAt(s, from) then Some(from)
    else FindFrom(s, from + 1)
  }

  /** Searching from the start finds a match exactly when the pattern matches
      somewhere, and then the leftmost one. */
  lemma LeftmostMatch(s: string)
    ensures FindFrom(s, 0).None? <==> forall j :: !MatchesAt(s, j)
    ensures FindFrom(s, 0).Some? ==> && MatchesAt(s, FindFrom(s, 0).value)
                                     && forall k :: 0 <= k < FindFrom(s, 0).value ==> !MatchesAt(s, k)
  {
  }

  /** The greedy group `[\w\s]+`: the longest prefix of city characters. */
  function CityRun(s: string): (r: string)
    ensures |r| <= |s| && r == s[..|r|]
    ensures forall i :: 0 <= i < |r| ==> IsCityChar(r[i])
    ensures |r| == |s| || !IsCityChar(s[|r|])
  {
    if s != [] && IsCityChar(s[0]) then
      var rest := CityRun(s[1..]);
      assert [s[0]] + rest == s[..1 + |rest|];
      [s[0]] + rest
    else []
  }

  /** The city named in the query: in the lower-cased query, the longest run of
      city characters right after the leftmost phrase followed by one, with
      surrounding whitespace removed; `None` when the pattern matches nowhere. */
  function City(query: string): (r: Option<string>)
    ensures r.None? <==> forall j :: !MatchesAt(Lower(query), j)
    ensures r.Some? ==> exists j :: && MatchesAt(Lower(query), j)
                                    && (forall k :: 0 <= k < j ==> !MatchesAt(Lower(query), k))
                                    && r.value == Strip(CityRun(Lower(query)[j + |Phrase|..]))
  {
    var s := Lower(query);
    LeftmostMatch(s);
    match FindFrom(s, 0)
    case None => None
    case Some(j) => Some(Strip(CityRun(s[j + |Phrase|..])))
  }

  /** The shape of a city as sent to the service: every character is a small
      letter, a digit, `_` or whitespace, and it neither begins nor ends with
      whitespace. */
  predicate IsCityName(c: string) {
    && (forall i :: 0 <= i < |c| ==> IsCityChar(c[i]) && !IsUpper(c[i]))
    && (c == [] || (!IsSpace(c[0]) && !IsSpace(c[|c| - 1])))
  }

  /** A stripped run of city characters taken from a string without capitals
      has the shape of a city name. */
  lemma StrippedRunShape(s: string, from: nat)
    requires from <= |s|
    requires forall i :: 0 <= i < |s| ==> !IsUpper(s[i])
    ensures IsCityName(Strip(CityRun(s[from..])))
  {
    var run := CityRun(s[from..]);
    var P := (c: char) => IsCityChar(c) && !IsUpper(c);
    forall k | 0 <= k < |run| ensures P(run[k]) {
      assert run[k] == s[from + k];
    }
    StripKeeps(run, P);
    StripEnds(run);
  }

  /** The city handed to the service is lower case, made of city characters, and stripped. */
  lemma CityShape(query: string)
    ensures City(query).Some? ==> IsCityName(City(query).value)
  {
    var s := Lower(query);
    match FindFrom(s, 0)
    case None =>
    case Some(j) =>
      assert forall i :: 0 <= i < |s| ==> !IsUpper(s[i]);
      StrippedRunShape(s, j + |Phrase|);
  }

  /** The opening words of a report. */
  const Opening: string := "The weather in "

  /** The sentence reported for a 200 reply: it opens with the fixed words, names
      the title-cased city right after them (differing from it only in case), then
      the weather code and the temperature, and ends in degrees Celsius. */
  function Report(city: string, reply: Reply): (r: string)
    ensures |Opening| + |city| <= |r| && r[..|Opening|] == Opening
    ensures r[|Opening|..|Opening| + |city|] == Title(city)
    ensures Lower(r[|Opening|..|Opening| + |city|]) == Lower(city)
    ensures var code := |Opening| + |city| + 4;
            && code + |reply.weatherCode| + 6 <= |r|
            && r[|Opening| + |city|..code] == " is "
            && r[code..code + |reply.weatherCode|] == reply.weatherCode
            && r[code + |reply.weatherCode|..code + |reply.weatherCode| + 6] == " with "
    ensures |reply.temperature| + 3 <= |r|
    ensures r[|r| - 3 - |reply.temperature|..|r| - 3] == reply.temperature
    ensures r[|r| - 3..] == "\U{00B0}C."
    ensures |r| == |Opening| + |city| + 4 + |reply.weatherCode| + 6 + |reply.temperature| + 3
  {
    var named := Opening + Title(city);
    var r := named + " is " + reply.weatherCode + " with " + reply.temperature + "\U{00B0}C.";
    assert r[..|named|] == named;
    assert r[|Opening|..|Opening| + |city|] == Title(city);
    LowerTitle(city);
    r
  }

  /** `WeatherAgent.run`: declines exactly when the pattern does not match; otherwise
      one request for the extracted city, whose status decides between the report
      and the apology. It never answers with an empty string. */
  function Run(query: string, apiKey: string, fetch: Request -> Reply): (r: Option<string>)
    ensures r.None? <==> forall j :: !MatchesAt(Lower(query), j)
    ensures r.Some? ==> |r.value| > 0
    ensures r.Some? && fetch(Request(City(query).value, apiKey)).status != 200 ==> r.value == Apology
    ensures r.Some? && fetch(Request(City(query).value, apiKey)).status == 200 ==>
              r.value == Report(City(query).value, fetch(Request(City(query).value, apiKey)))
  {
    match City(query)
    case None => None
    case Some(city) =>
      var reply := fetch(Request(city, apiKey));
      if reply.status == 200 then Some(Report(city, reply)) else Some(Apology)
  }

  /** A query that is the phrase followed by one word of letters asks about that
      word in lower case. */
  lemma CityOfPlainQuery(word: string)
    requires |word| > 0 && forall i :: 0 <= i < |word| ==> IsLetter(word[i])
    ensures City(Phrase + word) == Some(Lower(word))
  {
    var l := Lower(word);
    var s := Lower(Phrase + word);
    LowerAppend(Phrase, word);
    LowerNoUpper(Phrase);
    assert s == Phrase + l;
    assert s[..|Phrase|] == Phrase;
    assert s[|Phrase|] == l[0];
    assert MatchesAt(s, 0);
    assert s[|Phrase|..] == l;
    assert CityRun(l) == l;
    StripUnchanged(l);
  }

  /** A query that is the phrase followed by one word of letters asks the service
      about that word in lower case and answers with the report or the apology. */
  lemma PlainQueryAnswer(word: string, apiKey: string, fetch: Request -> Reply)
    requires |word| > 0 && forall i :: 0 <= i < |word| ==> IsLetter(word[i])
    ensures var reply := fetch(Request(Lower(word), apiKey));
            Run(Phrase + word, apiKey, fetch)
            == Some(if reply.status == 200 then Report(Lower(word), reply) else Apology)
  {
    CityOfPlainQuery(word);
  }
}
